=== FILE: README.md ===
# TopStepX client: a verified model of its session and request protocol

This project models the core of the `topstepx` Python client for the
TopStepX trading REST API in Dafny:

- **the session** (`TopStepXAuth`): credentials, an optional bearer token and
  its assumed expiry. A token counts as expired 5 minutes before a client-side
  24-hour validity window ends. `get_valid_token` logs in lazily. A successful
  login stamps `now + 24h`, and a failed one leaves the session as it was.
- **the request protocol** (`TopStepXClient`): each of the eleven operations
  first gets a valid token. It then sends one POST with a fixed JSON body and
  decodes the reply. It succeeds iff `success` is truthy and
  `errorCode == 0`. On success it returns a named list field (`[]` when the
  field is absent) or the whole envelope. Otherwise it raises the error class
  of its resource.
- **the wire enums** (`OrderType`, `OrderSide`, `OrderStatus`,
  `PositionType`) and **the error taxonomy** (`TopStepXError` and its four
  subclasses).

The model is purely functional. A session is an immutable `Auth.Session`.
The wall clock is an explicit `now: int` in seconds. Every network exchange
is an input `Protocol.Reply`: an HTTP status with a decoded JSON object
body, or an opaque transport failure. Every call returns an `Auth.Step`: the
session afterwards, the requests sent in order, and either the value
returned or the error raised (`Exceptions.Raised`).

JSON values (`JsonValues.Json`) keep "key absent" apart from "present but
null". This matters because `data.get("errorMessage", "Unknown error")` falls
back to "Unknown error" only when the key is absent. A present `null` gives a
`None` message. The model applies Python's truthiness and `== 0` to every
JSON kind, so `False` and `0.0` also compare equal to `0`.

Files: `outcomes.dfy` (Option/Result), `json.dfy` (JSON values and the Python
semantics used on them), `exceptions.dfy`, `models.dfy`, `protocol.dfy` (the
shared envelope check), `auth.dfy`, `client.dfy`.

Two details of the code shape the model:

- the error message falls back to "Unknown error" only when the
  `errorMessage` key is absent; a `null` or empty message passes through.
- the authorization header is formatted from whatever token is stored, so
  with no token it reads `Bearer None`.

## Model

| member | source | states |
|---|---|---|
| Exceptions.NewError | src/topstepx/exceptions.py:6-9 | an error stores its class, message and code exactly as given |
| Exceptions.DefaultCodeIsNull | src/topstepx/exceptions.py:6 | omitting the code gives a `None` code, for every class |
| Exceptions.StrForm | src/topstepx/exceptions.py:9 | `str(e)` is the message: its text for a string message, "None" for a null one |
| Exceptions.InstanceFollowsBases | src/topstepx/exceptions.py:4-29 | `isinstance` read as "the base class or the error's own class" agrees, for every error and class, with `issubclass` over the declared bases |
| Exceptions.HierarchyIsFlat | src/topstepx/exceptions.py:12-29 | over the declared bases, every class is a subclass of `TopStepXError`, and no class is a subclass of a different non-root class |
| Exceptions.KindIsTheOnlyDifference | src/topstepx/exceptions.py:12-29 | the subclasses add no state: same message and code give equal errors iff the classes are equal, and the same string form |
| Models.OrderTypeCode | src/topstepx/models.py:6-13 | order type codes lie in 1..7 and skip 3 |
| Models.OrderTypeOfCode | src/topstepx/models.py:6-13 | a code decodes to an order type exactly when it is one of 1, 2, 4, 5, 6, 7 |
| Models.OrderSideCode | src/topstepx/models.py:16-19 | order side codes are 0 or 1 |
| Models.OrderSideOfCode | src/topstepx/models.py:16-19 | a code decodes to a side exactly when it is 0 or 1 |
| Models.OrderStatusCode | src/topstepx/models.py:22-27 | order status codes lie in 1..4 |
| Models.OrderStatusOfCode | src/topstepx/models.py:22-27 | a code decodes to a status exactly when it lies in 1..4 |
| Models.PositionTypeCode | src/topstepx/models.py:30-33 | position type codes are 0 or 1 |
| Models.PositionTypeOfCode | src/topstepx/models.py:30-33 | a code decodes to a position type exactly when it is 0 or 1 |
| Models.WireCodes | src/topstepx/models.py:6-33 | the codes are LIMIT=1, MARKET=2, STOP=4, TRAILING_STOP=5, JOIN_BID=6, JOIN_ASK=7; BUY=0, SELL=1; PENDING=1, FILLED=2, CANCELLED=3, REJECTED=4; LONG=0, SHORT=1 |
| Models.OrderTypeRoundTrip | src/topstepx/models.py:6-13 | decoding an order type's code gives it back, and a code decodes to a type iff that type encodes to it |
| Models.OrderSideRoundTrip | src/topstepx/models.py:16-19 | decode(encode(side)) is the side, and a code decodes to a side iff it encodes to that code |
| Models.OrderStatusRoundTrip | src/topstepx/models.py:22-27 | decode(encode(status)) is the status, both directions |
| Models.PositionTypeRoundTrip | src/topstepx/models.py:30-33 | decode(encode(type)) is the type, both directions |
| Models.CodesAreInjective | src/topstepx/models.py:6-33 | within each enum, distinct members have distinct codes |
| Models.NoOrderTypeThree | src/topstepx/models.py:8-10 | code 3 is not an order type, and decoding it fails |
| Protocol.ErrorMessage | src/topstepx/client.py:62 | the failure message is the envelope's `errorMessage` when the key is present, even if null, and "Unknown error" only when it is absent |
| Protocol.Succeeded | src/topstepx/client.py:58 | the success rule: a succeeded envelope has both `success` and `errorCode`; `success: true, errorCode: 0` succeeds and `success: false` never does |
| Protocol.ErrorFrom | src/topstepx/client.py:61-64 | a failed envelope becomes an error of the caller's class with that message and the envelope's `errorCode`, `None` if absent |
| Protocol.CheckedBody | src/topstepx/client.py:55-56 | `raise_for_status` lets the body through iff the status is 2xx, and raises the status otherwise; a transport failure propagates untranslated |
| Protocol.Decode | src/topstepx/client.py:58-64 | success iff a 2xx reply's envelope has a truthy `success` and `errorCode == 0`; it then returns the named field (`[]` if absent) or the whole envelope, and otherwise raises the caller's class with the envelope's message and code |
| Protocol.SucceededOnTypedEnvelope | src/topstepx/client.py:58 | with a bool `success` and an int `errorCode`, success iff `success` is true and the code is 0; a missing `success` or `errorCode` always fails |
| Protocol.FailureMessageAndCode | src/topstepx/client.py:61-64 | absent message gives "Unknown error", a present null gives null, a string message becomes `str(e)`; an absent code gives `None`, an int code is kept |
| Protocol.DecodeOutcomeIndependentOfShapeAndKind | src/topstepx/client.py:58-64 | every operation applies the same success rule: the shape and class change only what is returned or which class labels the error |
| Auth.NewSession | src/topstepx/auth.py:17-28 | a new session stores username and API key verbatim and has no token and no expiry |
| Auth.HasToken | src/topstepx/auth.py:40 | the `not self.token` guard: a null token and an empty string both count as no token, any other string as a token |
| Auth.IsTokenExpired | src/topstepx/auth.py:99-109 | expired when there is no expiry; otherwise expired iff at most 5 minutes remain before it |
| Auth.NeedsLogin | src/topstepx/auth.py:40 | a login is needed with no token or no expiry, and otherwise iff `now + 5min` has reached the expiry |
| Auth.LoginRequest | src/topstepx/auth.py:60-67 | the login request goes to `/api/Auth/loginKey` with exactly `userName` and `apiKey` and no authorization header |
| Auth.Login | src/topstepx/auth.py:53-80 | one exchange. Success iff a 2xx reply's envelope passes the rule and has a `token`. Success stores that token and an expiry of exactly `now + 24h`. Any failure leaves the session unchanged. A failed envelope raises an authentication error with its message and code. A missing token raises `KeyError`. A non-2xx status or a transport failure of the exchange propagates untranslated, never as an authentication error |
| Auth.GetValidToken | src/topstepx/auth.py:30-42 | with a present, unexpired token: no exchange, no change, the token is returned. Otherwise: exactly one login, which succeeds iff the login does, then the stored token is returned. A failure leaves the session unchanged |
| Auth.GetHeaders | src/topstepx/auth.py:44-51 | the headers are exactly `{"Authorization": "Bearer " + token}` (`Bearer None` with no token), built without a validity check |
| Auth.ValidateToken | src/topstepx/auth.py:82-97 | with no token, false with no exchange; otherwise one header-only request to `/api/Auth/validate`, true iff the status is 200; the session never changes |
| Auth.ValidateSendsHeldToken | src/topstepx/auth.py:92-96 | for a held string token, validation sends exactly one request, whose bearer header reads back as that token |
| Auth.HeaderCarriesToken | src/topstepx/auth.py:51 | the token read back from the header is exactly the stored string token |
| Auth.ExpiryMargin | src/topstepx/auth.py:99-109 | edges of the rule: an expiry 3 min ahead is expired, 10 min or 1 h ahead is not, 1 h past is |
| Auth.ExpiryIsMonotone | src/topstepx/auth.py:106-109 | once expired, a token stays expired at every later time |
| Auth.StepsPreserveInv | src/topstepx/auth.py:71-75 | login and get-valid-token keep the invariant that a token is only set with an expiry |
| Auth.ValidWindowAfterLogin | src/topstepx/auth.py:40-109 | after a login at `t` that stored a non-empty token, any call before `t + 24h - 5min` returns that token with no exchange and no change |
| Auth.WindowCloses | src/topstepx/auth.py:40-109 | at or after `t + 24h - 5min`, or when the login stored an empty or null token, the next call logs in again |
| Auth.RejectedLoginExample | src/topstepx/auth.py:76-80 | a `success: false`, code 7, "bad key" login raises an authentication error ("bad key", 7) and leaves the session unauthenticated |
| Auth.GetValidTokenRepeatedly | src/topstepx/auth.py:30-42 | repeated calls that all succeed return one token per call and never touch the credentials |
| Auth.NoLoginWithinWindow | src/topstepx/auth.py:40-42 | for any number of calls before the refresh point of a present token: no login, no change, and the same token every time |
| Auth.OneLoginPerWindow | src/topstepx/auth.py:40-75 | from a fresh session, calls inside the window of a first successful login make exactly one login exchange in all and return one token throughout |
| Auth.RepeatedlyPreservesInv | src/topstepx/auth.py:71-75 | any run of calls keeps the token-with-expiry invariant |
| Client.PlaceOrderPayload | src/topstepx/client.py:138-149 | the order body always has all ten keys, `type` and `side` as integer codes, and null for exactly the omitted optional arguments |
| Client.PlaceOrderPayloadRoundTrip | src/topstepx/client.py:138-149 | reading the order body back gives exactly the arguments |
| Client.PlaceOrderPayloadInjective | src/topstepx/client.py:138-149 | distinct orders give distinct bodies |
| Client.ModifyOrderPayload | src/topstepx/client.py:307-314 | the modify body always has all six keys, with null for exactly the unspecified fields |
| Client.ModifyOrderPayloadRoundTrip | src/topstepx/client.py:307-314 | reading the modify body back gives exactly the arguments |
| Client.SearchPayload | src/topstepx/client.py:190-195 | the order and trade search body always has `accountId` and `startTimestamp`, and has `endTimestamp` iff an end was given (same code at client.py:468-473) |
| Client.SearchPayloadRoundTrip | src/topstepx/client.py:468-473 | reading a search body back gives the account, start and optional end |
| Client.Path | src/topstepx/client.py:51-477 | every operation posts to an endpoint under `/api/` that is neither the login nor the validation endpoint |
| Client.Payload | src/topstepx/client.py:52-473 | each body's key set is fixed by the operation: accounts send `onlyActiveAccounts: true`, contracts send `live`, every account-scoped operation sends an integer `accountId`, and a search sends `endTimestamp` iff an end is given |
| Client.ResultShape | src/topstepx/client.py:59-485 | the whole envelope is returned exactly by the five mutations; every other operation returns a named list field |
| Client.ErrorKindOf | src/topstepx/client.py:61-487 | the error class is never the base or authentication class; it is OrderError exactly for the five order operations and PositionError exactly for the three position operations |
| Client.Execute | src/topstepx/client.py:47-64 | an operation first gets a valid token. A login failure is raised with only the login exchange sent. Otherwise one request is sent with the endpoint's body and bearer header, and its reply is decoded with the operation's shape and class. The session changes only through the token step |
| Client.PathNamesResource | src/topstepx/client.py:37-490 | each operation's endpoint path names its resource: Account, Contract, Order, Position or Trade |
| Client.ErrorKindFollowsResource | src/topstepx/client.py:37-490 | the error class follows the resource: APIError for accounts, contracts and trades; OrderError for all order operations; PositionError for all position operations |
| Client.ResultShapeByOperation | src/topstepx/client.py:37-490 | the five mutations (place, cancel, modify, close, partial close) return the whole envelope. Every other operation returns its resource's list field: accounts, contracts, orders, positions or trades |
| Client.OperationSucceeds | src/topstepx/client.py:58-59 | with a token in hand, an operation succeeds iff the status is 2xx and the envelope passes the rule; it then returns its resource's collection field (`[]` if absent), or the whole envelope for a mutation |
| Client.OperationRaises | src/topstepx/client.py:60-64 | with a token in hand, a 2xx reply whose envelope fails the rule raises the operation's error class with the envelope's message (or "Unknown error") and code |
| Client.TokenBeforeRequest | src/topstepx/client.py:47-53 | the endpoint request is the last one sent and carries the header of the session holding the returned token; one login precedes it exactly when the session needed one |
| Client.LoginFailureAborts | src/topstepx/client.py:47 | a failed login aborts before the endpoint request. Only the login is sent, its error is raised, the session is unchanged, and the endpoint reply plays no part |
| Client.ExecutePreservesInv | src/topstepx/client.py:47 | operations keep the token-with-expiry invariant |
| Client.RejectedOrderExample | src/topstepx/client.py:160-166 | a `success: false`, code 3, "insufficient margin" reply to `place_order` raises an order error with that message and code |

## Left out

- HTTP transport: the base URL, URL construction, the httpx client's
  lifecycle and headers other than authorization are not modelled. An
  exchange is its reply: a status with a decoded body, or an opaque
  transport failure that propagates unchanged.
- Decoding the body: `response.json()` failing, or returning something
  other than a JSON object, is not modelled. A body is always a JSON object.
- async/await and concurrency: the model is sequential. The race where two
  concurrent callers both log in is outside it.
- The clock: `datetime.now()` becomes an explicit `now` in seconds. The
  source reads the clock once in the expiry check and once more when
  stamping a login. The model uses one reading per call.
- `datetime` and `isoformat()`: a timestamp is represented by its ISO text.
- Prices: float prices are passed through as `real` values, with no
  rounding, NaN or infinity.
- Default arguments: the `live=True` default is dropped, so a caller always
  passes the flag. The optional order and modify fields are `Option` values,
  with `None` for an omitted argument.
- `TopStepXClient.__init__` (it only stores the session) and
  `src/topstepx/__init__.py` (re-exports only).
- Exceptions.StrForm: `str()` is exact for null, bool, int and string
  messages. A float, list or dict message renders as a placeholder, because
  Python's `repr` of those is not modelled.
- Auth.GetHeaders: the same rendering applies to a non-string token stored
  from a login reply. Such a token gets a placeholder header text.

=== FILE: auth.dfy ===
/** The session: credentials, an optional bearer token and its assumed expiry,
    refreshed lazily by logging in when the token is missing or about to
    expire. The wall clock is an explicit `now` in seconds, and each login
    exchange is given as its reply. */
module Auth {
  import opened Outcomes
  import opened JsonValues
  import opened Exceptions
  import opened Protocol

  const TokenValidityHours: int := 24
  const TokenRefreshMarginMinutes: int := 5
  /** Validity assumed for a fresh token: 24 hours, in seconds. */
  const TokenValiditySeconds: int := TokenValidityHours * 60 * 60
  /** A token this close to its assumed expiry already counts as expired. */
  const RefreshMarginSeconds: int := TokenRefreshMarginMinutes * 60

  const LoginPath: string := "/api/Auth/loginKey"
  const ValidatePath: string := "/api/Auth/validate"

  /** The session state. `token` is whatever the last successful login stored
      (`Null` for none); `tokenExpires` is the assumed expiry instant. */
  datatype Session = Session(username: string, apiKey: string, token: Json, tokenExpires: Option<int>)

  /** The effect of a call on the session: the session afterwards, the
      requests sent in order, and the value returned or the error raised. */
  datatype Step<T> = Step(session: Session, sent: seq<Request>, result: Result<T, Raised>)

  /** A token is only ever set together with an expiry. */
  predicate Inv(s: Session) {
    s.tokenExpires.None? ==> s.token == Null
  }

  /** A fresh session: credentials stored verbatim, no token, no expiry. */
  function NewSession(username: string, apiKey: string): (s: Session)
    ensures s.username == username && s.apiKey == apiKey
    ensures s.token == Null && s.tokenExpires == None
    ensures Inv(s) && !HasToken(s)
  {
    Session(username, apiKey, Null, None)
  }

  /** The session holds a token in Python's sense: neither a missing (null)
      token nor an empty string counts. */
  predicate HasToken(s: Session)
    ensures s.token.Null? ==> !HasToken(s)
    ensures s.token.Str? ==> (HasToken(s) <==> s.token.text != "")
  {
    Truthy(s.token)
  }

  /** The token is expired when there is no expiry, or when `now` has reached
      the expiry less the refresh margin. */
  predicate IsTokenExpired(s: Session, now: int)
    ensures s.tokenExpires.None? ==> IsTokenExpired(s, now)
    ensures s.tokenExpires.Some? ==>
              (IsTokenExpired(s, now) <==> s.tokenExpires.value - now <= RefreshMarginSeconds)
  {
    s.tokenExpires.None? || now >= s.tokenExpires.value - RefreshMarginSeconds
  }

  /** The condition under which `get_valid_token` logs in: no token, no
      expiry, or at most five minutes left. */
  predicate NeedsLogin(s: Session, now: int)
    ensures !HasToken(s) || s.tokenExpires.None? ==> NeedsLogin(s, now)
    ensures HasToken(s) && s.tokenExpires.Some? ==>
              (NeedsLogin(s, now) <==> now + RefreshMarginSeconds >= s.tokenExpires.value)
  {
    !HasToken(s) || IsTokenExpired(s, now)
  }

  /** The login exchange's request: the credentials, and no authorization. */
  function LoginRequest(s: Session): (q: Request)
    ensures q.path == LoginPath && q.headers == map[]
    ensures q.body.Some? && q.body.value.Keys == {"userName", "apiKey"}
    ensures q.body.value["userName"] == Str(s.username) && q.body.value["apiKey"] == Str(s.apiKey)
  {
    Request(LoginPath, Some(map["userName" := Str(s.username), "apiKey" := Str(s.apiKey)]), map[])
  }

  /** `_login`: one exchange. A succeeded envelope stores its `token` (a
      `KeyError`, with nothing stored, if it has none) and stamps the expiry
      `now + 24h`; any failure leaves the session as it was. */
  function Login(s: Session, now: int, reply: Reply): (r: Step<()>)
    ensures r.sent == [LoginRequest(s)]
    ensures r.session.username == s.username && r.session.apiKey == s.apiKey
    ensures r.result.Success? <==>
              reply.Response? && IsSuccessStatus(reply.status) && Succeeded(reply.body) && "token" in reply.body
    ensures r.result.Success? ==>
              r.session.token == reply.body["token"] && r.session.tokenExpires == Some(now + TokenValiditySeconds)
    ensures r.result.Failure? ==> r.session == s
    ensures reply.Response? && IsSuccessStatus(reply.status) && !Succeeded(reply.body) ==>
              r.result == Failure(Domain(ErrorFrom(Authentication, reply.body)))
    ensures !(reply.Response? && IsSuccessStatus(reply.status)) ==> r.result == Failure(CheckedBody(reply).error)
    ensures reply.Response? && IsSuccessStatus(reply.status) && Succeeded(reply.body) && "token" !in reply.body ==>
              r.result == Failure(KeyError("token"))
  {
    var sent := [LoginRequest(s)];
    match CheckedBody(reply)
    case Failure(e) => Step(s, sent, Failure(e))
    case Success(env) =>
      if !Succeeded(env) then Step(s, sent, Failure(Domain(ErrorFrom(Authentication, env))))
      else if "token" !in env then Step(s, sent, Failure(KeyError("token")))
      else Step(s.(token := env["token"], tokenExpires := Some(now + TokenValiditySeconds)), sent, Success(()))
  }

  /** `get_valid_token`: no exchange and no change while the token is present
      and unexpired; otherwise exactly one login, whose failure propagates. */
  function GetValidToken(s: Session, now: int, login: Reply): (r: Step<Json>)
    ensures !NeedsLogin(s, now) ==> r == Step(s, [], Success(s.token))
    ensures NeedsLogin(s, now) ==> r.sent == [LoginRequest(s)]
    ensures NeedsLogin(s, now) ==> (r.result.Success? <==> Login(s, now, login).result.Success?)
    ensures NeedsLogin(s, now) ==> r.session == Login(s, now, login).session
    ensures NeedsLogin(s, now) && r.result.Failure? ==> r.result.error == Login(s, now, login).result.error
    ensures r.result.Failure? ==> r.session == s
    ensures r.result.Success? ==> r.result.value == r.session.token
    ensures r.session.username == s.username && r.session.apiKey == s.apiKey
  {
    if NeedsLogin(s, now) then
      var l := Login(s, now, login);
      Step(l.session, l.sent, if l.result.Success? then Success(l.session.token) else Failure(l.result.error))
    else
      Step(s, [], Success(s.token))
  }

  /** `get_headers`: the bearer header built from the stored token, whatever
      it is, without any validity check. */
  function GetHeaders(s: Session): (h: map<string, string>)
    ensures h.Keys == {"Authorization"}
    ensures s.token.Str? ==> h["Authorization"] == "Bearer " + s.token.text
    ensures s.token.Null? ==> h["Authorization"] == "Bearer None"
  {
    map["Authorization" := "Bearer " + Render(s.token)]
  }

  /** Reads the token back out of an authorization header. */
  function BearerToken(h: map<string, string>): Option<string> {
    if "Authorization" in h && |h["Authorization"]| >= 7 && h["Authorization"][..7] == "Bearer "
    then Some(h["Authorization"][7..])
    else None
  }

  /** `validate_token`: with no token it answers false with no exchange;
      otherwise it sends one header-only request and answers whether the status
      was 200. */
  function ValidateToken(s: Session, reply: Reply): (r: Step<bool>)
    ensures r.session == s
    ensures !HasToken(s) ==> r.sent == [] && r.result == Success(false)
    ensures HasToken(s) ==> r.sent == [Request(ValidatePath, None, GetHeaders(s))]
    ensures HasToken(s) && reply.Response? ==> r.result == Success(reply.status == 200)
  {
    if !HasToken(s) then Step(s, [], Success(false))
    else
      var sent := [Request(ValidatePath, None, GetHeaders(s))];
      match reply
      case TransportFailure(d) => Step(s, sent, Failure(Transport(d)))
      case Response(status, _) => Step(s, sent, Success(status == 200))
  }

  /** The one request validation sends for a held string token carries that
      token, read back from its bearer header unchanged. */
  lemma ValidateSendsHeldToken(s: Session, reply: Reply)
    requires HasToken(s) && s.token.Str?
    ensures var r := ValidateToken(s, reply);
            |r.sent| == 1 && BearerToken(r.sent[0].headers) == Some(s.token.text)
  {
    HeaderCarriesToken(s);
  }

  /** The header carries exactly the stored string token. */
  lemma HeaderCarriesToken(s: Session)
    ensures s.token.Str? ==> BearerToken(GetHeaders(s)) == Some(s.token.text)
    ensures s.token.Null? ==> BearerToken(GetHeaders(s)) == Some("None")
  {
    if s.token.Str? {
      assert ("Bearer " + s.token.text)[7..] == s.token.text;
    }
  }

  /** The expiry rule at a few edges: three minutes ahead is expired, ten
      minutes or an hour ahead is not, an hour past is. */
  lemma ExpiryMargin(s: Session, now: int)
    requires s.tokenExpires.Some?
    ensures s.tokenExpires.value == now + 3 * 60 ==> IsTokenExpired(s, now)
    ensures s.tokenExpires.value == now + 10 * 60 ==> !IsTokenExpired(s, now)
    ensures s.tokenExpires.value == now + 60 * 60 ==> !IsTokenExpired(s, now)
    ensures s.tokenExpires.value == now - 60 * 60 ==> IsTokenExpired(s, now)
  {
  }

  /** Time only moves a token towards expiry: once expired, expired later too. */
  lemma ExpiryIsMonotone(s: Session, t1: int, t2: int)
    requires t1 <= t2
    ensures IsTokenExpired(s, t1) ==> IsTokenExpired(s, t2)
    ensures !IsTokenExpired(s, t2) ==> !IsTokenExpired(s, t1)
  {
  }

  /** Logging in and getting a token keep the token-with-expiry invariant. */
  lemma StepsPreserveInv(s: Session, now: int, reply: Reply)
    requires Inv(s)
    ensures Inv(Login(s, now, reply).session)
    ensures Inv(GetValidToken(s, now, reply).session)
  {
  }

  /** After a successful login at `t` that stored a non-empty token, every
      `get_valid_token` before `t + 24h - 5min` returns that token with no
      exchange and no change, whatever the next login would have replied. */
  lemma ValidWindowAfterLogin(s: Session, t: int, reply: Reply, now: int, later: Reply)
    requires Login(s, t, reply).result.Success?
    requires Truthy(reply.body["token"])
    requires now < t + TokenValiditySeconds - RefreshMarginSeconds
    ensures var s' := Login(s, t, reply).session;
            GetValidToken(s', now, later) == Step(s', [], Success(reply.body["token"]))
  {
  }

  /** The window closes: at `t + 24h - 5min` or later the same session logs
      in again. A login that stored an empty or null token does not even open
      it: the next call logs in again at once. */
  lemma WindowCloses(s: Session, t: int, reply: Reply, now: int, later: Reply)
    requires Login(s, t, reply).result.Success?
    requires now >= t + TokenValiditySeconds - RefreshMarginSeconds || !Truthy(reply.body["token"])
    ensures var s' := Login(s, t, reply).session;
            GetValidToken(s', now, later).sent == [LoginRequest(s')]
  {
  }

  /** A rejected login (`success: false`, code 7, "bad key") raises an
      authentication error with that message and code, and leaves a fresh
      session unauthenticated. */
  lemma RejectedLoginExample(username: string, apiKey: string, now: int)
    ensures var s := NewSession(username, apiKey);
            var env := map["success" := Bool(false), "errorCode" := Int(7), "errorMessage" := Str("bad key")];
            var r := GetValidToken(s, now, Response(200, env));
            r.result == Failure(Domain(TopStepXError(Authentication, Str("bad key"), Int(7))))
            && r.session == s && !HasToken(r.session)
  {
    var env := map["success" := Bool(false), "errorCode" := Int(7), "errorMessage" := Str("bad key")];
    assert !Succeeded(env);
  }

  /** One `get_valid_token` call: the clock reading and the reply the login
      exchange would get if one is made. */
  datatype Call = Call(now: int, login: Reply)

  /** Calling `get_valid_token` once per element of `calls`, in order,
      stopping at the first raise. */
  function GetValidTokenRepeatedly(s: Session, calls: seq<Call>): (r: Step<seq<Json>>)
    ensures r.result.Success? ==> |r.result.value| == |calls|
    ensures r.session.username == s.username && r.session.apiKey == s.apiKey
    decreases |calls|
  {
    if |calls| == 0 then Step(s, [], Success([]))
    else
      var first := GetValidToken(s, calls[0].now, calls[0].login);
      if first.result.Failure? then Step(first.session, first.sent, Failure(first.result.error))
      else
        var rest := GetValidTokenRepeatedly(first.session, calls[1..]);
        Step(rest.session, first.sent + rest.sent,
             if rest.result.Failure? then Failure(rest.result.error)
             else Success([first.result.value] + rest.result.value))
  }

  predicate AllEqual(tokens: seq<Json>, t: Json) {
    forall i :: 0 <= i < |tokens| ==> tokens[i] == t
  }

  /** Refresh idempotence over any number of calls: while every clock reading
      is before the refresh point of a present token, no call logs in, the
      session does not change, and every call returns the same token. */
  lemma {:induction false} NoLoginWithinWindow(s: Session, calls: seq<Call>)
    requires HasToken(s) && s.tokenExpires.Some?
    requires forall i :: 0 <= i < |calls| ==> calls[i].now < s.tokenExpires.value - RefreshMarginSeconds
    ensures var r := GetValidTokenRepeatedly(s, calls);
            r.session == s && r.sent == [] && r.result.Success?
            && |r.result.value| == |calls| && AllEqual(r.result.value, s.token)
    decreases |calls|
  {
    if |calls| > 0 {
      assert !NeedsLogin(s, calls[0].now);
      NoLoginWithinWindow(s, calls[1..]);
    }
  }

  /** Starting from a fresh session, a first successful login that yields a
      non-empty token serves every later call made before its refresh point:
      exactly one login exchange in all, and one token returned throughout. */
  lemma {:induction false} OneLoginPerWindow(username: string, apiKey: string, calls: seq<Call>)
    requires |calls| > 0
    requires Login(NewSession(username, apiKey), calls[0].now, calls[0].login).result.Success?
    requires Truthy(calls[0].login.body["token"])
    requires forall i :: 0 <= i < |calls| ==>
               calls[i].now < calls[0].now + TokenValiditySeconds - RefreshMarginSeconds
    ensures var r := GetValidTokenRepeatedly(NewSession(username, apiKey), calls);
            r.sent == [LoginRequest(NewSession(username, apiKey))]
            && r.result.Success? && AllEqual(r.result.value, calls[0].login.body["token"])
  {
    var s := NewSession(username, apiKey);
    var first := GetValidToken(s, calls[0].now, calls[0].login);
    var s' := first.session;
    assert s'.tokenExpires == Some(calls[0].now + TokenValiditySeconds);
    NoLoginWithinWindow(s', calls[1..]);
    var rest := GetValidTokenRepeatedly(s', calls[1..]);
    assert first.sent + rest.sent == [LoginRequest(s)];
    AllEqualCons(first.result.value, rest.result.value);
  }

  lemma AllEqualCons(t: Json, tokens: seq<Json>)
    requires AllEqual(tokens, t)
    ensures AllEqual([t] + tokens, t)
  {
  }

  /** Any sequence of calls from a session with a token-with-expiry keeps that
      invariant. */
  lemma {:induction false} RepeatedlyPreservesInv(s: Session, calls: seq<Call>)
    requires Inv(s)
    ensures Inv(GetValidTokenRepeatedly(s, calls).session)
    decreases |calls|
  {
    if |calls| > 0 {
      StepsPreserveInv(s, calls[0].now, calls[0].login);
      RepeatedlyPreservesInv(GetValidToken(s, calls[0].now, calls[0].login).session, calls[1..]);
    }
  }
}

=== FILE: client.dfy ===
/** The client's operations. Each obtains a valid token, builds a fixed JSON
    payload, sends one request to its endpoint and decodes the reply with the
    shared protocol, choosing a result shape and an error class. */
module Client {
  import opened Outcomes
  import opened JsonValues
  import opened Exceptions
  import opened Models
  import opened Protocol
  import opened Auth

  /** A `datetime`, represented by its `isoformat()` text. */
  datatype DateTime = DateTime(iso: string)

  function Isoformat(d: DateTime): string {
    d.iso
  }

  /** The arguments of `place_order`. Prices are passed through unchanged. */
  datatype OrderIntent = OrderIntent(
    accountId: int,
    contractId: string,
    orderType: OrderType,
    side: OrderSide,
    size: int,
    limitPrice: Option<real>,
    stopPrice: Option<real>,
    trailPrice: Option<real>,
    customTag: Option<string>,
    linkedOrderId: Option<int>)

  /** The arguments of `modify_order`; an omitted field is sent as null. */
  datatype OrderChange = OrderChange(
    accountId: int,
    orderId: int,
    size: Option<int>,
    limitPrice: Option<real>,
    stopPrice: Option<real>,
    trailPrice: Option<real>)

  /** The client's eleven operations with their arguments. */
  datatype Operation =
    | GetActiveAccounts
    | GetAvailableContracts(live: bool)
    | PlaceOrder(order: OrderIntent)
    | SearchOrders(accountId: int, start: DateTime, end: Option<DateTime>)
    | GetOpenOrders(accountId: int)
    | CancelOrder(accountId: int, orderId: int)
    | ModifyOrder(change: OrderChange)
    | GetOpenPositions(accountId: int)
    | ClosePosition(accountId: int, contractId: string)
    | PartialClosePosition(accountId: int, contractId: string, size: int)
    | SearchTrades(accountId: int, start: DateTime, end: Option<DateTime>)

  /** The resource family an endpoint path belongs to (`/api/<Resource>/...`). */
  datatype Resource = AccountResource | ContractResource | OrderResource | PositionResource | TradeResource

  function IntOrNull(o: Option<int>): Json {
    match o
    case None => Null
    case Some(n) => Int(n)
  }

  function FloatOrNull(o: Option<real>): Json {
    match o
    case None => Null
    case Some(x) => Float(x)
  }

  function StrOrNull(o: Option<string>): Json {
    match o
    case None => Null
    case Some(t) => Str(t)
  }

  function AsIntOrNull(j: Json): Option<Option<int>> {
    match j
    case Null => Some(None)
    case Int(n) => Some(Some(n))
    case _ => None
  }

  function AsFloatOrNull(j: Json): Option<Option<real>> {
    match j
    case Null => Some(None)
    case Float(x) => Some(Some(x))
    case _ => None
  }

  function AsStrOrNull(j: Json): Option<Option<string>> {
    match j
    case Null => Some(None)
    case Str(t) => Some(Some(t))
    case _ => None
  }

  const PlaceOrderKeys: set<string> :=
    {"accountId", "contractId", "type", "side", "size",
     "limitPrice", "stopPrice", "trailPrice", "customTag", "linkedOrderId"}

  const ModifyOrderKeys: set<string> :=
    {"accountId", "orderId", "size", "limitPrice", "stopPrice", "trailPrice"}

  /** The `place_order` body: all ten keys always, the enums as their integer
      codes, and null for every omitted optional argument. */
  function PlaceOrderPayload(o: OrderIntent): (p: JsonObject)
    ensures p.Keys == PlaceOrderKeys
    ensures p["type"] == Int(OrderTypeCode(o.orderType)) && p["side"] == Int(OrderSideCode(o.side))
    ensures p["limitPrice"] == Null <==> o.limitPrice.None?
    ensures p["stopPrice"] == Null <==> o.stopPrice.None?
    ensures p["trailPrice"] == Null <==> o.trailPrice.None?
    ensures p["customTag"] == Null <==> o.customTag.None?
    ensures p["linkedOrderId"] == Null <==> o.linkedOrderId.None?
  {
    map[
      "accountId" := Int(o.accountId),
      "contractId" := Str(o.contractId),
      "type" := Int(OrderTypeCode(o.orderType)),
      "side" := Int(OrderSideCode(o.side)),
      "size" := Int(o.size),
      "limitPrice" := FloatOrNull(o.limitPrice),
      "stopPrice" := FloatOrNull(o.stopPrice),
      "trailPrice" := FloatOrNull(o.trailPrice),
      "customTag" := StrOrNull(o.customTag),
      "linkedOrderId" := IntOrNull(o.linkedOrderId)
    ]
  }

  /** Reads an order back from a `place_order` body, as the server would. */
  function ParsePlaceOrderPayload(p: JsonObject): Option<OrderIntent> {
    if p.Keys == PlaceOrderKeys
       && p["accountId"].Int? && p["contractId"].Str? && p["type"].Int? && p["side"].Int? && p["size"].Int?
       && OrderTypeOfCode(p["type"].number).Some? && OrderSideOfCode(p["side"].number).Some?
       && AsFloatOrNull(p["limitPrice"]).Some? && AsFloatOrNull(p["stopPrice"]).Some?
       && AsFloatOrNull(p["trailPrice"]).Some? && AsStrOrNull(p["customTag"]).Some?
       && AsIntOrNull(p["linkedOrderId"]).Some?
    then
      Some(OrderIntent(
        p["accountId"].number, p["contractId"].text,
        OrderTypeOfCode(p["type"].number).value, OrderSideOfCode(p["side"].number).value,
        p["size"].number,
        AsFloatOrNull(p["limitPrice"]).value, AsFloatOrNull(p["stopPrice"]).value,
        AsFloatOrNull(p["trailPrice"]).value, AsStrOrNull(p["customTag"]).value,
        AsIntOrNull(p["linkedOrderId"]).value))
    else None
  }

  /** The `modify_order` body: all six keys always, null for every field the
      caller did not specify. */
  function ModifyOrderPayload(c: OrderChange): (p: JsonObject)
    ensures p.Keys == ModifyOrderKeys
    ensures p["size"] == Null <==> c.size.None?
    ensures p["limitPrice"] == Null <==> c.limitPrice.None?
    ensures p["stopPrice"] == Null <==> c.stopPrice.None?
    ensures p["trailPrice"] == Null <==> c.trailPrice.None?
  {
    map[
      "accountId" := Int(c.accountId),
      "orderId" := Int(c.orderId),
      "size" := IntOrNull(c.size),
      "limitPrice" := FloatOrNull(c.limitPrice),
      "stopPrice" := FloatOrNull(c.stopPrice),
      "trailPrice" := FloatOrNull(c.trailPrice)
    ]
  }

  function ParseModifyOrderPayload(p: JsonObject): Option<OrderChange> {
    if p.Keys == ModifyOrderKeys
       && p["accountId"].Int? && p["orderId"].Int? && AsIntOrNull(p["size"]).Some?
       && AsFloatOrNull(p["limitPrice"]).Some? && AsFloatOrNull(p["stopPrice"]).Some?
       && AsFloatOrNull(p["trailPrice"]).Some?
    then
      Some(OrderChange(
        p["accountId"].number, p["orderId"].number, AsIntOrNull(p["size"]).value,
        AsFloatOrNull(p["limitPrice"]).value, AsFloatOrNull(p["stopPrice"]).value,
        AsFloatOrNull(p["trailPrice"]).value))
    else None
  }

  /** The `search_orders` / `search_trades` body: account and start always,
      `endTimestamp` only when an end was given. */
  function SearchPayload(accountId: int, start: DateTime, end: Option<DateTime>): (p: JsonObject)
    ensures "accountId" in p && "startTimestamp" in p
    ensures "endTimestamp" in p <==> end.Some?
    ensures p.Keys <= {"accountId", "startTimestamp", "endTimestamp"}
  {
    var base := map["accountId" := Int(accountId), "startTimestamp" := Str(Isoformat(start))];
    match end
    case None => base
    case Some(e) => base["endTimestamp" := Str(Isoformat(e))]
  }

  function ParseSearchPayload(p: JsonObject): Option<(int, DateTime, Option<DateTime>)> {
    if "accountId" in p && "startTimestamp" in p && p["accountId"].Int? && p["startTimestamp"].Str?
       && p.Keys <= {"accountId", "startTimestamp", "endTimestamp"}
       && ("endTimestamp" in p ==> p["endTimestamp"].Str?)
    then
      Some((p["accountId"].number, DateTime(p["startTimestamp"].text),
            if "endTimestamp" in p then Some(DateTime(p["endTimestamp"].text)) else None))
    else None
  }

  /** The endpoint each operation posts to: always under `/api/`, and never
      one of the authentication endpoints. */
  function Path(op: Operation): (p: string)
    ensures |p| > 5 && p[..5] == "/api/"
    ensures p != LoginPath && p != ValidatePath
  {
    match op
    case GetActiveAccounts => "/api/Account/search"
    case GetAvailableContracts(_) => "/api/Contract/available"
    case PlaceOrder(_) => "/api/Order/place"
    case SearchOrders(_, _, _) => "/api/Order/search"
    case GetOpenOrders(_) => "/api/Order/searchOpen"
    case CancelOrder(_, _) => "/api/Order/cancel"
    case ModifyOrder(_) => "/api/Order/modify"
    case GetOpenPositions(_) => "/api/Position/searchOpen"
    case ClosePosition(_, _) => "/api/Position/closeContract"
    case PartialClosePosition(_, _, _) => "/api/Position/partialCloseContract"
    case SearchTrades(_, _, _) => "/api/Trade/search"
  }

  /** The JSON body of each operation's request. Every operation on an
      account's orders, positions or trades names the account as an integer;
      the key set of each body is fixed by the operation alone, except that a
      search's `endTimestamp` appears only when an end is given. */
  function Payload(op: Operation): (p: JsonObject)
    ensures op.GetActiveAccounts? ==> p == map["onlyActiveAccounts" := Bool(true)]
    ensures op.GetAvailableContracts? ==> p == map["live" := Bool(op.live)]
    ensures !op.GetActiveAccounts? && !op.GetAvailableContracts? ==> "accountId" in p && p["accountId"].Int?
    ensures op.PlaceOrder? ==> p.Keys == PlaceOrderKeys
    ensures op.ModifyOrder? ==> p.Keys == ModifyOrderKeys
    ensures op.GetOpenOrders? || op.GetOpenPositions? ==> p.Keys == {"accountId"}
    ensures op.CancelOrder? ==> p.Keys == {"accountId", "orderId"}
    ensures op.ClosePosition? ==> p.Keys == {"accountId", "contractId"}
    ensures op.PartialClosePosition? ==> p.Keys == {"accountId", "contractId", "size"}
    ensures op.SearchOrders? || op.SearchTrades? ==>
              ("endTimestamp" in p <==> op.end.Some?) && {"accountId", "startTimestamp"} <= p.Keys
  {
    match op
    case GetActiveAccounts => map["onlyActiveAccounts" := Bool(true)]
    case GetAvailableContracts(live) => map["live" := Bool(live)]
    case PlaceOrder(o) => PlaceOrderPayload(o)
    case SearchOrders(a, start, end) => SearchPayload(a, start, end)
    case GetOpenOrders(a) => map["accountId" := Int(a)]
    case CancelOrder(a, id) => map["accountId" := Int(a), "orderId" := Int(id)]
    case ModifyOrder(c) => ModifyOrderPayload(c)
    case GetOpenPositions(a) => map["accountId" := Int(a)]
    case ClosePosition(a, contract) => map["accountId" := Int(a), "contractId" := Str(contract)]
    case PartialClosePosition(a, contract, size) =>
      map["accountId" := Int(a), "contractId" := Str(contract), "size" := Int(size)]
    case SearchTrades(a, start, end) => SearchPayload(a, start, end)
  }

  /** What each operation returns on success: the whole envelope exactly for
      the five mutations, a named list field for the rest. */
  function ResultShape(op: Operation): (r: Shape)
    ensures r.WholeEnvelope? <==> IsMutation(op)
  {
    match op
    case GetActiveAccounts => ListField("accounts")
    case GetAvailableContracts(_) => ListField("contracts")
    case PlaceOrder(_) => WholeEnvelope
    case SearchOrders(_, _, _) => ListField("orders")
    case GetOpenOrders(_) => ListField("orders")
    case CancelOrder(_, _) => WholeEnvelope
    case ModifyOrder(_) => WholeEnvelope
    case GetOpenPositions(_) => ListField("positions")
    case ClosePosition(_, _) => WholeEnvelope
    case PartialClosePosition(_, _, _) => WholeEnvelope
    case SearchTrades(_, _, _) => ListField("trades")
  }

  /** The error class each operation raises for a failed envelope: never the
      base class or the authentication class; the order class exactly for the
      order operations and the position class exactly for the position ones. */
  function ErrorKindOf(op: Operation): (k: ErrorKind)
    ensures k == Api || k == Order || k == Position
    ensures k == Order <==>
              op.PlaceOrder? || op.SearchOrders? || op.GetOpenOrders? || op.CancelOrder? || op.ModifyOrder?
    ensures k == Position <==> op.GetOpenPositions? || op.ClosePosition? || op.PartialClosePosition?
  {
    match op
    case GetActiveAccounts => Api
    case GetAvailableContracts(_) => Api
    case PlaceOrder(_) => Order
    case SearchOrders(_, _, _) => Order
    case GetOpenOrders(_) => Order
    case CancelOrder(_, _) => Order
    case ModifyOrder(_) => Order
    case GetOpenPositions(_) => Position
    case ClosePosition(_, _) => Position
    case PartialClosePosition(_, _, _) => Position
    case SearchTrades(_, _, _) => Api
  }

  predicate IsPrefix(prefix: string, s: string) {
    |prefix| <= |s| && s[..|prefix|] == prefix
  }

  /** The resource named by a path's second segment. */
  function ResourceOfPath(path: string): Option<Resource> {
    if IsPrefix("/api/Account/", path) then Some(AccountResource)
    else if IsPrefix("/api/Contract/", path) then Some(ContractResource)
    else if IsPrefix("/api/Order/", path) then Some(OrderResource)
    else if IsPrefix("/api/Position/", path) then Some(PositionResource)
    else if IsPrefix("/api/Trade/", path) then Some(TradeResource)
    else None
  }

  /** The policy: order and position failures have their own classes, every
      other resource raises the generic API error. */
  function KindForResource(r: Resource): ErrorKind {
    match r
    case OrderResource => Order
    case PositionResource => Position
    case _ => Api
  }

  /** The list field a resource's searches return. */
  function CollectionName(r: Resource): string {
    match r
    case AccountResource => "accounts"
    case ContractResource => "contracts"
    case OrderResource => "orders"
    case PositionResource => "positions"
    case TradeResource => "trades"
  }

  /** The operations that change server state and return the whole envelope. */
  predicate IsMutation(op: Operation) {
    op.PlaceOrder? || op.CancelOrder? || op.ModifyOrder? || op.ClosePosition? || op.PartialClosePosition?
  }

  /** One operation: get a valid token (a login failure raises before any
      request), send the endpoint's request with the bearer header, and decode
      its reply. The request never changes the session. */
  function Execute(s: Session, now: int, login: Reply, op: Operation, reply: Reply): (r: Step<Json>)
    ensures r.session == GetValidToken(s, now, login).session
    ensures GetValidToken(s, now, login).result.Failure? ==>
              r.sent == GetValidToken(s, now, login).sent
              && r.result == Failure(GetValidToken(s, now, login).result.error)
    ensures GetValidToken(s, now, login).result.Success? ==>
              r.sent == GetValidToken(s, now, login).sent + [Request(Path(op), Some(Payload(op)), GetHeaders(r.session))]
              && r.result == Decode(reply, ResultShape(op), ErrorKindOf(op))
  {
    var t := GetValidToken(s, now, login);
    if t.result.Failure? then Step(t.session, t.sent, Failure(t.result.error))
    else
      var request := Request(Path(op), Some(Payload(op)), GetHeaders(t.session));
      Step(t.session, t.sent + [request], Decode(reply, ResultShape(op), ErrorKindOf(op)))
  }

  /** The `place_order` body determines the order exactly: reading it back
      gives the arguments, so no argument is dropped or conflated. */
  lemma PlaceOrderPayloadRoundTrip(o: OrderIntent)
    ensures ParsePlaceOrderPayload(PlaceOrderPayload(o)) == Some(o)
  {
    OrderTypeRoundTrip(o.orderType, OrderTypeCode(o.orderType));
    OrderSideRoundTrip(o.side, OrderSideCode(o.side));
  }

  lemma ModifyOrderPayloadRoundTrip(c: OrderChange)
    ensures ParseModifyOrderPayload(ModifyOrderPayload(c)) == Some(c)
  {
  }

  lemma SearchPayloadRoundTrip(accountId: int, start: DateTime, end: Option<DateTime>)
    ensures ParseSearchPayload(SearchPayload(accountId, start, end)) == Some((accountId, start, end))
  {
  }

  /** Distinct orders give distinct bodies. */
  lemma PlaceOrderPayloadInjective(o1: OrderIntent, o2: OrderIntent)
    ensures PlaceOrderPayload(o1) == PlaceOrderPayload(o2) ==> o1 == o2
  {
    PlaceOrderPayloadRoundTrip(o1);
    PlaceOrderPayloadRoundTrip(o2);
  }

  /** Every endpoint lives under one resource, and the error class raised is
      the one the resource calls for: API errors for accounts, contracts and
      trades, order errors for every order operation, position errors for
      every position operation. */
  lemma ErrorKindFollowsResource(op: Operation)
    ensures ResourceOfPath(Path(op)).Some?
    ensures ErrorKindOf(op) == KindForResource(ResourceOfPath(Path(op)).value)
  {
    PathNamesResource(op);
  }

  /** List operations return their resource's collection field, defaulting to
      `[]` when the field is absent; the five mutations return the whole
      envelope unchanged. */
  lemma ResultShapeByOperation(op: Operation)
    ensures ResultShape(op) == WholeEnvelope <==> IsMutation(op)
    ensures ResultShape(op).ListField? ==>
              ResultShape(op).name == CollectionName(ResourceOfPath(Path(op)).value)
  {
    PathNamesResource(op);
  }

  /** Each path's second segment, spelled out. */
  lemma PathNamesResource(op: Operation)
    ensures op.GetActiveAccounts? ==> ResourceOfPath(Path(op)) == Some(AccountResource)
    ensures op.GetAvailableContracts? ==> ResourceOfPath(Path(op)) == Some(ContractResource)
    ensures op.PlaceOrder? || op.SearchOrders? || op.GetOpenOrders? || op.CancelOrder? || op.ModifyOrder? ==>
              ResourceOfPath(Path(op)) == Some(OrderResource)
    ensures op.GetOpenPositions? || op.ClosePosition? || op.PartialClosePosition? ==>
              ResourceOfPath(Path(op)) == Some(PositionResource)
    ensures op.SearchTrades? ==> ResourceOfPath(Path(op)) == Some(TradeResource)
  {
    var p := Path(op);
    if !op.GetActiveAccounts? {
      assert p[5] != "/api/Account/"[5];
    }
    if !op.GetActiveAccounts? && !op.GetAvailableContracts? {
      assert p[5] != "/api/Contract/"[5];
    }
    if op.GetOpenPositions? || op.ClosePosition? || op.PartialClosePosition? || op.SearchTrades? {
      assert p[5] != "/api/Order/"[5];
    }
    if op.SearchTrades? {
      assert p[5] != "/api/Position/"[5];
    }
  }

  /** With a token in hand, an operation succeeds exactly when the HTTP status
      is 2xx and the envelope passes the shared rule, and then returns its
      resource's collection field (`[]` when absent) or, for a mutation, the
      envelope itself. */
  lemma OperationSucceeds(s: Session, now: int, login: Reply, op: Operation, reply: Reply)
    requires GetValidToken(s, now, login).result.Success?
    ensures var r := Execute(s, now, login, op, reply);
            (r.result.Success? <==> reply.Response? && IsSuccessStatus(reply.status) && Succeeded(reply.body))
            && (r.result.Success? && !IsMutation(op) ==>
                  r.result.value == GetOr(reply.body, CollectionName(ResourceOfPath(Path(op)).value), Array([])))
            && (r.result.Success? && IsMutation(op) ==> r.result.value == Object(reply.body))
  {
    ResultShapeByOperation(op);
  }

  /** With a token in hand, a 2xx reply whose envelope fails the rule raises
      the operation's error class with the envelope's message and code. */
  lemma OperationRaises(s: Session, now: int, login: Reply, op: Operation, status: int, env: JsonObject)
    requires GetValidToken(s, now, login).result.Success?
    requires IsSuccessStatus(status) && !Succeeded(env)
    ensures Execute(s, now, login, op, Response(status, env)).result
              == Failure(Domain(TopStepXError(ErrorKindOf(op), ErrorMessage(env), Get(env, "errorCode"))))
  {
  }

  /** The token comes first: the endpoint's request is the last one sent and
      carries the bearer header of the session holding the returned token; it
      is preceded by a login exchange exactly when the session needed one. */
  lemma TokenBeforeRequest(s: Session, now: int, login: Reply, op: Operation, reply: Reply)
    requires GetValidToken(s, now, login).result.Success?
    ensures var r := Execute(s, now, login, op, reply);
            |r.sent| >= 1
            && r.sent[|r.sent| - 1] == Request(Path(op), Some(Payload(op)), GetHeaders(r.session))
            && r.session.token == GetValidToken(s, now, login).result.value
            && (NeedsLogin(s, now) ==> r.sent == [LoginRequest(s), r.sent[1]])
            && (!NeedsLogin(s, now) ==> |r.sent| == 1 && r.session == s)
  {
  }

  /** A failed login aborts the operation before its request: nothing but the
      login exchange is sent, the login's error is raised, the session is
      unchanged, and the endpoint's reply plays no part. */
  lemma LoginFailureAborts(s: Session, now: int, login: Reply, op: Operation, reply1: Reply, reply2: Reply)
    requires GetValidToken(s, now, login).result.Failure?
    ensures var r := Execute(s, now, login, op, reply1);
            r.sent == [LoginRequest(s)] && r.session == s
            && r.result == Failure(GetValidToken(s, now, login).result.error)
            && r == Execute(s, now, login, op, reply2)
  {
  }

  /** Operations keep the session's token-with-expiry invariant. */
  lemma ExecutePreservesInv(s: Session, now: int, login: Reply, op: Operation, reply: Reply)
    requires Inv(s)
    ensures Inv(Execute(s, now, login, op, reply).session)
  {
    StepsPreserveInv(s, now, login);
  }

  /** A rejected order (`success: false`, code 3, "insufficient margin") with
      a valid token raises an order error with that message and code. */
  lemma RejectedOrderExample(s: Session, now: int, login: Reply, o: OrderIntent)
    requires !NeedsLogin(s, now)
    ensures var env := map["success" := Bool(false), "errorCode" := Int(3), "errorMessage" := Str("insufficient margin")];
            Execute(s, now, login, PlaceOrder(o), Response(200, env)).result
              == Failure(Domain(TopStepXError(Order, Str("insufficient margin"), Int(3))))
  {
    var env := map["success" := Bool(false), "errorCode" := Int(3), "errorMessage" := Str("insufficient margin")];
    assert !Succeeded(env);
  }
}

=== FILE: exceptions.dfy ===
/** The library's error taxonomy: one base error and four subclasses that add
    nothing but their name, modelled as one tagged datatype. */
module Exceptions {
  import opened Outcomes
  import opened JsonValues

  /** Which class of the hierarchy an error was raised as. `TopStepX` is the
      base class itself; the other four are its direct subclasses. */
  datatype ErrorKind = TopStepX | Authentication | Api | Order | Position

  /** An error carries the message and the code it was constructed with,
      verbatim. The client passes raw envelope values, so both are JSON values;
      a missing code is `Null`. */
  datatype TopStepXError = TopStepXError(kind: ErrorKind, message: Json, errorCode: Json)

  /** What a call can raise: a domain error, an HTTP error status from
      `raise_for_status`, a transport failure of the HTTP layer (opaque), or a
      `KeyError` from indexing a missing envelope field. None of the last three
      is translated into a domain error. */
  datatype Raised =
    | Domain(error: TopStepXError)
    | HttpStatus(status: int)
    | Transport(detail: string)
    | KeyError(key: string)

  /** Construction of an error of the given class; `errorCode` defaults to `None`. */
  function NewError(kind: ErrorKind, message: Json, errorCode: Json := Null): (e: TopStepXError)
    ensures e.kind == kind
    ensures e.message == message
    ensures e.errorCode == errorCode
  {
    TopStepXError(kind, message, errorCode)
  }

  /** The base class each class is declared with: the root derives from no
      class of the library, each of the four others from the root. */
  function Base(k: ErrorKind): Option<ErrorKind>
  {
    match k
    case TopStepX => None
    case Authentication => Some(TopStepX)
    case Api => Some(TopStepX)
    case Order => Some(TopStepX)
    case Position => Some(TopStepX)
  }

  /** Level of a class below the root: the measure that walking up the
      declared bases decreases. */
  function Depth(k: ErrorKind): nat
  {
    if k == TopStepX then 0 else 1
  }

  /** `issubclass(k, cls)`: `cls` is `k` itself or lies on `k`'s chain of
      declared bases. */
  predicate IsSubclass(k: ErrorKind, cls: ErrorKind)
    decreases Depth(k)
  {
    k == cls || (Base(k).Some? && IsSubclass(Base(k).value, cls))
  }

  /** `isinstance(e, cls)` as the flat hierarchy answers it: the base class or
      the error's own class. */
  predicate IsInstance(e: TopStepXError, cls: ErrorKind)
  {
    cls == TopStepX || e.kind == cls
  }

  /** The flat answer agrees with the declared bases: an error is an instance
      of a class exactly when its own class is a subclass of it. */
  lemma InstanceFollowsBases(e: TopStepXError, cls: ErrorKind)
    ensures IsInstance(e, cls) <==> IsSubclass(e.kind, cls)
  {
  }

  /** `str(e)`: the message passed to `Exception.__init__`. */
  function StrForm(e: TopStepXError): (r: string)
    ensures e.message.Str? ==> r == e.message.text
    ensures e.message.Null? ==> r == "None"
  {
    Render(e.message)
  }

  /** Omitting the code gives a `None` code, whatever the class. */
  lemma DefaultCodeIsNull(kind: ErrorKind, message: Json)
    ensures NewError(kind, message).errorCode == Null
  {
  }

  /** The declared bases form a flat tree: every class derives from the root,
      and no class derives from a different non-root class. */
  lemma HierarchyIsFlat(k: ErrorKind, cls: ErrorKind)
    ensures IsSubclass(k, TopStepX)
    ensures cls != TopStepX && cls != k ==> !IsSubclass(k, cls)
  {
  }

  /** The subclasses add no state: two errors built from the same message and
      code are equal exactly when their classes are. */
  lemma KindIsTheOnlyDifference(k1: ErrorKind, k2: ErrorKind, message: Json, code: Json)
    ensures NewError(k1, message, code) == NewError(k2, message, code) <==> k1 == k2
    ensures StrForm(NewError(k1, message, code)) == StrForm(NewError(k2, message, code))
  {
  }
}

=== FILE: json.dfy ===
/** JSON values as the client sees them after `response.json()`, together with
    the few pieces of Python semantics the client applies to them: truthiness,
    comparison with `0`, `dict.get`, and `str()`. */
module JsonValues {

  datatype Json =
    | Null
    | Bool(truth: bool)
    | Int(number: int)
    | Float(magnitude: real)
    | Str(text: string)
    | Array(items: seq<Json>)
    | Object(fields: map<string, Json>)

  /** A decoded JSON object (a Python `dict` with string keys). */
  type JsonObject = map<string, Json>

  /** Python truthiness of a decoded JSON value: `None`, `False`, zero and
      empty containers are false, everything else is true. */
  predicate Truthy(j: Json) {
    match j
    case Null => false
    case Bool(b) => b
    case Int(n) => n != 0
    case Float(x) => x != 0.0
    case Str(t) => |t| > 0
    case Array(a) => |a| > 0
    case Object(m) => |m| > 0
  }

  /** Python's `j == 0`: true for `0`, `0.0` and `False` (bool is an int subtype). */
  predicate EqualsZero(j: Json) {
    match j
    case Bool(b) => !b
    case Int(n) => n == 0
    case Float(x) => x == 0.0
    case _ => false
  }

  /** Python's lookup with a default: the default only for an absent key. */
  function GetOr(obj: JsonObject, key: string, default: Json): (r: Json)
    ensures key in obj ==> r == obj[key]
    ensures key !in obj ==> r == default
  {
    if key in obj then obj[key] else default
  }

  /** Python's lookup without a default: absent keys read as `None`. */
  function Get(obj: JsonObject, key: string): (r: Json)
    ensures key in obj ==> r == obj[key]
    ensures key !in obj ==> r == Null
  {
    GetOr(obj, key, Null)
  }

  function DigitChar(d: nat): char
    requires d < 10
  {
    "0123456789"[d]
  }

  /** The decimal digits of a natural number, most significant first. */
  function Digits(n: nat): (r: string)
    decreases n
  {
    if n < 10 then [DigitChar(n)] else Digits(n / 10) + [DigitChar(n % 10)]
  }

  /** Python's `str()` of a decoded JSON value. Floats, lists and dicts are
      rendered by a placeholder (their Python `repr` is not modelled). */
  function Render(j: Json): string {
    match j
    case Null => "None"
    case Bool(b) => if b then "True" else "False"
    case Int(n) => if n < 0 then "-" + Digits(-n) else Digits(n)
    case Str(t) => t
    case Float(_) => "<float>"
    case Array(_) => "<list>"
    case Object(_) => "<dict>"
  }
}

=== FILE: models.dfy ===
/** The wire enumerations: fixed integer codes defined by the remote service. */
module Models {
  import opened Outcomes

  datatype OrderType = Limit | Market | Stop | TrailingStop | JoinBid | JoinAsk
  datatype OrderSide = Buy | Sell
  datatype OrderStatus = Pending | Filled | Cancelled | Rejected
  datatype PositionType = Long | Short

  function OrderTypeCode(t: OrderType): (c: int)
    ensures 1 <= c <= 7 && c != 3
  {
    match t
    case Limit => 1
    case Market => 2
    case Stop => 4
    case TrailingStop => 5
    case JoinBid => 6
    case JoinAsk => 7
  }

  /** `OrderType(c)`: fails for any code that names no member. */
  function OrderTypeOfCode(c: int): (r: Option<OrderType>)
    ensures r.Some? <==> c in {1, 2, 4, 5, 6, 7}
  {
    if c == 1 then Some(Limit)
    else if c == 2 then Some(Market)
    else if c == 4 then Some(Stop)
    else if c == 5 then Some(TrailingStop)
    else if c == 6 then Some(JoinBid)
    else if c == 7 then Some(JoinAsk)
    else None
  }

  function OrderSideCode(s: OrderSide): (c: int)
    ensures 0 <= c <= 1
  {
    match s
    case Buy => 0
    case Sell => 1
  }

  function OrderSideOfCode(c: int): (r: Option<OrderSide>)
    ensures r.Some? <==> 0 <= c <= 1
  {
    if c == 0 then Some(Buy) else if c == 1 then Some(Sell) else None
  }

  function OrderStatusCode(s: OrderStatus): (c: int)
    ensures 1 <= c <= 4
  {
    match s
    case Pending => 1
    case Filled => 2
    case Cancelled => 3
    case Rejected => 4
  }

  function OrderStatusOfCode(c: int): (r: Option<OrderStatus>)
    ensures r.Some? <==> 1 <= c <= 4
  {
    if c == 1 then Some(Pending)
    else if c == 2 then Some(Filled)
    else if c == 3 then Some(Cancelled)
    else if c == 4 then Some(Rejected)
    else None
  }

  function PositionTypeCode(p: PositionType): (c: int)
    ensures 0 <= c <= 1
  {
    match p
    case Long => 0
    case Short => 1
  }

  function PositionTypeOfCode(c: int): (r: Option<PositionType>)
    ensures r.Some? <==> 0 <= c <= 1
  {
    if c == 0 then Some(Long) else if c == 1 then Some(Short) else None
  }

  /** The codes fixed by the remote service's contract. */
  lemma WireCodes()
    ensures OrderTypeCode(Limit) == 1 && OrderTypeCode(Market) == 2 && OrderTypeCode(Stop) == 4
    ensures OrderTypeCode(TrailingStop) == 5 && OrderTypeCode(JoinBid) == 6 && OrderTypeCode(JoinAsk) == 7
    ensures OrderSideCode(Buy) == 0 && OrderSideCode(Sell) == 1
    ensures OrderStatusCode(Pending) == 1 && OrderStatusCode(Filled) == 2
    ensures OrderStatusCode(Cancelled) == 3 && OrderStatusCode(Rejected) == 4
    ensures PositionTypeCode(Long) == 0 && PositionTypeCode(Short) == 1
  {
  }

  /** Decoding inverts encoding, and a code decodes only to the member that
      encodes to it: encoding is injective and decoding is its exact inverse. */
  lemma OrderTypeRoundTrip(t: OrderType, c: int)
    ensures OrderTypeOfCode(OrderTypeCode(t)) == Some(t)
    ensures OrderTypeOfCode(c) == Some(t) <==> OrderTypeCode(t) == c
  {
  }

  lemma OrderSideRoundTrip(s: OrderSide, c: int)
    ensures OrderSideOfCode(OrderSideCode(s)) == Some(s)
    ensures OrderSideOfCode(c) == Some(s) <==> OrderSideCode(s) == c
  {
  }

  lemma OrderStatusRoundTrip(s: OrderStatus, c: int)
    ensures OrderStatusOfCode(OrderStatusCode(s)) == Some(s)
    ensures OrderStatusOfCode(c) == Some(s) <==> OrderStatusCode(s) == c
  {
  }

  lemma PositionTypeRoundTrip(p: PositionType, c: int)
    ensures PositionTypeOfCode(PositionTypeCode(p)) == Some(p)
    ensures PositionTypeOfCode(c) == Some(p) <==> PositionTypeCode(p) == c
  {
  }

  /** Distinct members have distinct codes. */
  lemma CodesAreInjective(t1: OrderType, t2: OrderType, s1: OrderSide, s2: OrderSide,
                          u1: OrderStatus, u2: OrderStatus, p1: PositionType, p2: PositionType)
    ensures OrderTypeCode(t1) == OrderTypeCode(t2) ==> t1 == t2
    ensures OrderSideCode(s1) == OrderSideCode(s2) ==> s1 == s2
    ensures OrderStatusCode(u1) == OrderStatusCode(u2) ==> u1 == u2
    ensures PositionTypeCode(p1) == PositionTypeCode(p2) ==> p1 == p2
  {
    OrderTypeRoundTrip(t1, OrderTypeCode(t2));
    OrderSideRoundTrip(s1, OrderSideCode(s2));
    OrderStatusRoundTrip(u1, OrderStatusCode(u2));
    PositionTypeRoundTrip(p1, PositionTypeCode(p2));
  }

  /** There is no order type with code 3 (the numbering skips it). */
  lemma NoOrderTypeThree()
    ensures OrderTypeOfCode(3) == None
    ensures forall t: OrderType :: OrderTypeCode(t) != 3
  {
  }
}

=== FILE: outcomes.dfy ===
/** Optional values and success/failure results, used in place of Python's
    `None` and raised exceptions. */
module Outcomes {

  /** An optional value: Python's `Optional[T]`, where `None` is absence. */
  datatype Option<+T> = None | Some(value: T)

  /** The outcome of an operation that either returns a value or raises. */
  datatype Result<+T, +E> = Success(value: T) | Failure(error: E)
}

=== FILE: protocol.dfy ===
/** The request protocol every call shares: one POST whose reply is checked by
    `raise_for_status`, then decoded as a response envelope under one rule —
    success iff `success` is truthy and `errorCode == 0`. */
module Protocol {
  import opened Outcomes
  import opened JsonValues
  import opened Exceptions

  /** One outbound POST: endpoint path, JSON body (`None` for a request sent
      without one) and headers. */
  datatype Request = Request(path: string, body: Option<JsonObject>, headers: map<string, string>)

  /** What the exchange of one request produced: an HTTP response with a
      status and a decoded JSON object body, or a failure of the transport
      itself (connection refused, timeout, ...), which is opaque. */
  datatype Reply = Response(status: int, body: JsonObject) | TransportFailure(detail: string)

  /** What a successful call returns: one named list field of the envelope
      (`[]` when the field is absent), or the whole envelope. */
  datatype Shape = ListField(name: string) | WholeEnvelope

  /** httpx's `is_success`: `raise_for_status` raises for any other status. */
  predicate IsSuccessStatus(status: int) {
    200 <= status < 300
  }

  /** The domain success rule: the `success` field is truthy and the
      `errorCode` field compares equal to zero. A missing field reads as
      null, so an envelope lacking either one never succeeds. */
  predicate Succeeded(env: JsonObject)
    ensures Succeeded(env) ==> "success" in env && "errorCode" in env
    ensures Get(env, "success") == Bool(true) && Get(env, "errorCode") == Int(0) ==> Succeeded(env)
    ensures Get(env, "success") == Bool(false) ==> !Succeeded(env)
  {
    Truthy(Get(env, "success")) && EqualsZero(Get(env, "errorCode"))
  }

  /** The message of a failed envelope: its `errorMessage` value whenever the
      key is present, even a null one, and "Unknown error" only when the key
      is absent. */
  function ErrorMessage(env: JsonObject): (m: Json)
    ensures "errorMessage" !in env ==> m == Str("Unknown error")
    ensures "errorMessage" in env ==> m == env["errorMessage"]
  {
    GetOr(env, "errorMessage", Str("Unknown error"))
  }

  /** The error a failed envelope is turned into, of the caller's class. */
  function ErrorFrom(kind: ErrorKind, env: JsonObject): (e: TopStepXError)
    ensures e.kind == kind
    ensures e.message == ErrorMessage(env)
    ensures e.errorCode == Get(env, "errorCode")
  {
    NewError(kind, ErrorMessage(env), Get(env, "errorCode"))
  }

  /** The HTTP layer's check of a reply: a 2xx response yields its decoded
      body; any other status raises that status, and a transport failure
      propagates as it is. */
  function CheckedBody(reply: Reply): (r: Result<JsonObject, Raised>)
    ensures r.Success? <==> reply.Response? && IsSuccessStatus(reply.status)
    ensures r.Success? ==> r.value == reply.body
    ensures reply.TransportFailure? ==> r == Failure(Transport(reply.detail))
    ensures reply.Response? && !IsSuccessStatus(reply.status) ==> r == Failure(HttpStatus(reply.status))
  {
    match reply
    case TransportFailure(d) => Failure(Transport(d))
    case Response(status, body) =>
      if IsSuccessStatus(status) then Success(body) else Failure(HttpStatus(status))
  }

  /** The value a succeeded envelope yields for a given result shape: the
      named field, or an empty list when it is absent; or the whole envelope. */
  function Unwrap(env: JsonObject, shape: Shape): Json {
    match shape
    case ListField(name) => GetOr(env, name, Array([]))
    case WholeEnvelope => Object(env)
  }

  /** The shared decode-and-check step, parameterised by result shape and by
      the error class raised for a failed envelope. */
  function Decode(reply: Reply, shape: Shape, kind: ErrorKind): (r: Result<Json, Raised>)
    ensures r.Success? <==> reply.Response? && IsSuccessStatus(reply.status) && Succeeded(reply.body)
    ensures r.Success? && shape.ListField? ==>
              (shape.name in reply.body ==> r.value == reply.body[shape.name])
              && (shape.name !in reply.body ==> r.value == Array([]))
    ensures r.Success? && shape.WholeEnvelope? ==> r.value == Object(reply.body)
    ensures r.Failure? && reply.Response? && IsSuccessStatus(reply.status) ==>
              r.error == Domain(ErrorFrom(kind, reply.body))
    ensures !reply.Response? || !IsSuccessStatus(reply.status) ==> r == Failure(CheckedBody(reply).error)
  {
    match CheckedBody(reply)
    case Failure(e) => Failure(e)
    case Success(env) =>
      if Succeeded(env) then Success(Unwrap(env, shape))
      else Failure(Domain(ErrorFrom(kind, env)))
  }

  /** For a well-typed envelope (`success` a bool, `errorCode` an int) the rule
      reads literally: success exactly when `success` is true and the code is 0.
      A missing `success` or a missing `errorCode` is always a failure. */
  lemma SucceededOnTypedEnvelope(env: JsonObject, b: bool, code: int)
    ensures "success" !in env ==> !Succeeded(env)
    ensures "errorCode" !in env ==> !Succeeded(env)
    ensures Get(env, "success") == Bool(b) && Get(env, "errorCode") == Int(code) ==>
              (Succeeded(env) <==> b && code == 0)
  {
  }

  /** A failed envelope's error carries the server's message, "Unknown error"
      only when the message key is absent, and the server's code, `None` when
      absent. */
  lemma FailureMessageAndCode(kind: ErrorKind, env: JsonObject, msg: string, code: int)
    ensures "errorMessage" !in env ==> ErrorFrom(kind, env).message == Str("Unknown error")
    ensures Get(env, "errorMessage") == Null && "errorMessage" in env ==> ErrorFrom(kind, env).message == Null
    ensures Get(env, "errorMessage") == Str(msg) ==> StrForm(ErrorFrom(kind, env)) == msg
    ensures "errorCode" !in env ==> ErrorFrom(kind, env).errorCode == Null
    ensures Get(env, "errorCode") == Int(code) ==> ErrorFrom(kind, env).errorCode == Int(code)
  {
  }

  /** The decode outcome depends on the reply alone: the result shape only
      chooses what a success returns and the error class only labels a failed
      envelope. */
  lemma DecodeOutcomeIndependentOfShapeAndKind(reply: Reply, s1: Shape, s2: Shape, k1: ErrorKind, k2: ErrorKind)
    ensures Decode(reply, s1, k1).Success? <==> Decode(reply, s2, k2).Success?
    ensures Decode(reply, s1, k1).Failure? && Decode(reply, s1, k1).error.Domain? ==>
              Decode(reply, s2, k2).error.Domain?
              && Decode(reply, s2, k2).error.error == Decode(reply, s1, k1).error.error.(kind := k2)
  {
  }
}
